=== FILE: README.md ===
# awslb reconciliation core in Dafny

awslb is an agent that keeps a configuration file in step with an AWS
inventory. On every poll it renders a template whose `lookupService` calls ask
EC2 or an Elastic Load Balancer for instances. It hashes the output and only
when the digest changed writes the destination file and runs the reload
command, logging that command's output line by line.

This project models that core as pure functions over immutable data:

- `wrappers.dfy` holds `Option` and `Result`.
- `errors.dfy` holds the errors the core returns.
- `configuration.dfy` holds the configuration shapes.
- `gostrings.dfy` models the two Go string functions the core relies on,
  `strings.Split` on one character and `strings.TrimSpace` with
  `unicode.IsSpace`, plus the `Join` that undoes `Split`, so that round trips
  can be stated.
- `lookup.dfy` models filter parsing, the flattening of reservations into
  instance records, the health selection of load-balancer members, and the
  call and error shape of the two lookups.
- `exec.dfy` models how the reload command's output becomes log lines, and
  how `TaskStatus` and the result of `executeTask` are decided.
- `writer.dfy` models service dispatch and the change gate of a pass over
  `lastRunMd5`.
- `poller.dfy` models the poll loop as a fold over a sequence of events.

The AWS provider, the template renderer, the digest function and the command's
behaviour are all parameters. A pass records the file write and the reload as
effects, in order, so ordering and idempotence can be stated.

## Model

| member | source | states |
|---|---|---|
| GoStrings.TrimSpace | exec.go:78 | the result is no longer than the input and neither starts nor ends with a Unicode white-space character |
| GoStrings.TrimSpaceLeftRight | lookup.go:70 | trimming both ends at once equals Go's definition: trim the left end, then the right end |
| GoStrings.TrimSpaceEmpty | exec.go:78-79 | trimming gives the empty string exactly when the input is all white space |
| GoStrings.TrimSpaceInfix | lookup.go:70 | the trimmed text is the infix of the input between its leading and trailing white space |
| GoStrings.TrimSpaceLeading | lookup.go:73 | everything trimmed from the front is white space |
| GoStrings.TrimSpaceTrailing | lookup.go:73 | everything trimmed from the back is white space |
| GoStrings.TrimSpaceIdempotent | lookup.go:70 | trimming twice is trimming once |
| GoStrings.Split | lookup.go:63 | `strings.Split` on one character gives at least one part, and the first part is the text before the first separator (all of it when there is none) |
| GoStrings.SplitSingle | lookup.go:63-64 | splitting gives fewer than two parts exactly when the separator does not occur, and then the one part is the input |
| GoStrings.SplitLength | lookup.go:63 | there is one more part than occurrences of the separator |
| GoStrings.SplitPieces | lookup.go:63 | no part contains the separator |
| GoStrings.JoinSplit | lookup.go:63 | joining the parts with the separator gives back the input |
| GoStrings.SplitJoin | lookup.go:63 | splitting a join of separator-free parts gives back the parts |
| Lookup.CreateFilter | lookup.go:62-78 | no filter exactly when the text has no vertical bar; otherwise one value per bar, so "key" followed by a bar gives one empty value |
| Lookup.CreateFilterName | lookup.go:73-75 | the filter name is the trimmed text before the first vertical bar |
| Lookup.CreateFilterClean | lookup.go:68-77 | the name and every value of a parsed filter are trimmed and free of vertical bars |
| Lookup.FilterOfJoin | lookup.go:62-78 | for any bar-free pieces joined by vertical bars, the name is the first piece with its white space trimmed, and the values are the later pieces, each trimmed, in order |
| Lookup.FilterRoundTrip | lookup.go:62-78 | writing a filter with trimmed, bar-free parts as its name and values joined by vertical bars, and parsing that, gives the same filter back |
| Lookup.CreateFilters | lookup.go:80-89 | one filter per input string that contains a vertical bar |
| Lookup.CreateFiltersMembers | lookup.go:80-89 | a filter is in the output exactly when some input string parses to it |
| Lookup.CreateFiltersAppend | lookup.go:82-87 | inputs are handled one by one, so the output keeps the input order |
| Lookup.BuildInstanceList | lookup.go:30-43 | the response becomes one instance record per instance, over all reservations |
| Lookup.Flatten | lookup.go:30-43 | the instance list has as many records as there are instances across all reservations |
| Lookup.BuildInstanceListOrder | lookup.go:32-39 | instance `j` of reservation `k` lands after all instances of earlier reservations, with its id and both (possibly absent) addresses copied unchanged |
| Lookup.FlattenAppend | lookup.go:32-41 | earlier reservations' instances come before later ones |
| Lookup.HealthyIds | lookup.go:128-133 | the health selection keeps at most one id per reported member |
| Lookup.HealthyIdsUnchecked | lookup.go:128-133 | without the health check every member id is kept, in order |
| Lookup.HealthyIdsMembers | lookup.go:129-132 | an id is kept exactly when some member carrying it is admitted, that is, health is unchecked or its state is exactly "InService" |
| Lookup.HealthyIdsAppend | lookup.go:128-133 | the selection works member by member, so it keeps the reported order |
| Lookup.SearchLookup | lookup.go:92-99 | exactly one instance query with the parsed filters; its error comes back unchanged with no instances, otherwise its instance list |
| Lookup.ElbLookup | lookup.go:121-141 | the health query comes first and its error stops everything; otherwise the selected ids are queried and that query's error or instance list comes back |
| Lookup.ElbLookupQueriesAdmitted | lookup.go:128-135 | after a successful health query, the instance query names an id exactly when some member carrying it is admitted: every member without the health check, only "InService" ones with it |
| Exec.PipeLinesWellFormed | exec.go:78-80 | every logged line is the prefix followed by a non-empty payload that has no surrounding white space |
| Exec.Emit | exec.go:78-81 | at most one line is logged for a segment; a line is logged exactly when the trimmed segment is non-empty, and it is the prefix followed by that trimmed segment |
| Exec.EmitExactly | exec.go:79-81 | a segment is logged exactly when it holds something besides white space |
| Exec.PipeLinesCount | exec.go:75-86 | at most one line per newline-separated segment |
| Exec.PipeLinesLast | exec.go:76-77 | the unterminated last segment is logged only when the stream ended at EOF |
| Exec.ReadStrings | exec.go:75-86 | at EOF the `ReadString` loop always returns a final string, possibly empty |
| Exec.ReadStringsCount | exec.go:75-86 | the loop reads one string per newline, plus the final remainder when the stream ended at EOF; after any other read error the remainder is dropped |
| Exec.ReadLinesStep | exec.go:76-81 | a `ReadString` that finds a newline logs what the segment before the newline logs, since the newline is trimmed away |
| Exec.ReadLinesSplit | exec.go:75-86 | reading one `ReadString` at a time logs exactly what cutting the stream at every newline and trimming each segment gives |
| Exec.ReadPipeOutput | exec.go:72-87 | the reading loop logs exactly the newline-split reference lines, in stream order |
| Exec.Interleave | exec.go:29-31 | the log holds every line of both streams, no more and no fewer |
| Exec.InterleaveKeepsStdout | exec.go:46-47 | whatever the arrival order, the log lines carrying the standard-output prefix are exactly that stream's lines, in their own order |
| Exec.InterleaveKeepsStderr | exec.go:46-47 | whatever the arrival order, the log lines carrying the standard-error prefix are exactly that stream's lines, in their own order |
| Exec.RunCommand | exec.go:35-70 | a standard-error pipe failure ends ERROR with nothing logged; a standard-output pipe failure alone panics on the nil pipe; otherwise every line of both streams is logged and the status is COMPLETE exactly when `Wait` succeeded |
| Exec.StdoutPipeErrorMasked | exec.go:38-44 | once the standard-error pipe failed, a standard-output pipe failure makes no difference: the run ends ERROR before it starts |
| Exec.StdoutPipeErrorPanics | exec.go:38-46 | the overwritten error lets a run whose standard-output pipe alone failed start, and the agent panics; whether `executeTask` returned first depends on scheduling |
| Exec.ExecuteTask | exec.go:24-33 | true exactly when the final status is COMPLETE, that is, both pipes were set up and `Wait` succeeded; no result when the agent panics |
| Exec.ExecuteTaskLogsAllStdout | exec.go:28-31 | when both pipes are set up, every standard-output line reaches the log, in stream order, whatever the interleaving |
| Exec.ExecuteTaskLogsAllStderr | exec.go:28-31 | when both pipes are set up, every standard-error line reaches the log, in stream order, whatever the interleaving |
| Writer.NewWriter | writer.go:21-26 | a new writer keeps the configuration, and its last digest is all zero bytes |
| Writer.LookupService | writer.go:40-58 | unknown name: a not-found error and no call; "elb" and "search" select their lookups; any other type: an invalid-type error and no call |
| Writer.LookupServiceCalls | writer.go:42-57 | the provider is called exactly when the name is configured with a known type; a lookup that made no call failed |
| Writer.ReloadService | writer.go:60-70 | the reload command runs, once, exactly when one is configured |
| Writer.CheckConfig | writer.go:72-78 | the check never reports an error |
| Writer.CheckNeverBlocks | writer.go:72-78 | a configured check command changes neither the effects nor the result of a pass |
| Writer.WriteTemplate | writer.go:80-114 | a render error is returned with no change and no effect; an equal digest means no change and no effect; a new digest is stored and kept, then the file is written, then the reload runs; the configuration never changes |
| Writer.WriteTemplateOrder | writer.go:96-112 | at most one write per pass, exactly one when the digest changed, and every reload comes right after the write |
| Writer.WriteTemplateIdempotent | writer.go:95-112 | a second pass over the same output is a no-op, so the two passes write once at most and reload once at most |
| Poller.WriteFiles | poller.go:28-30 | one pass whose error is dropped |
| Poller.Wrap64 | poller.go:36 | the `int64` result equals the mathematical one when that fits, and otherwise differs from it by a multiple of 2^64 |
| Poller.TickerInterval | poller.go:35-36 | from -9,223,372,036 to 9,223,372,036 seconds the interval is seconds times 10^9 nanoseconds, and it is always congruent to that product modulo 2^64 |
| Poller.TickerIntervalPositive | poller.go:35-36 | from 1 to 9,223,372,036 seconds the interval is the intended positive number of nanoseconds |
| Poller.TickerIntervalNonPositive | poller.go:35-36 | from -9,223,372,036 to 0 seconds the interval is not positive, so the ticker panics |
| Poller.TickerIntervalUnderflow | poller.go:35-36 | -9,223,372,037 seconds wraps to a positive interval of about 292 years, so the ticker does not panic |
| Poller.TickerIntervalOverflow | poller.go:35-36 | 9,223,372,037 seconds overflows `int64` to a negative interval |
| Poller.HandleEvents | poller.go:42-55 | the ticker panic cannot arise once the loop runs, and the configuration never changes |
| Poller.Loop | poller.go:32-56 | at least one pass; the ticker panic happens exactly when the interval is not positive; the first pass's effects come first |
| Poller.HandleEventsPasses | poller.go:42-55 | one pass per tick before the first termination signal; the loop stops exactly when a termination signal arrives |
| Poller.LoopPasses | poller.go:32-56 | total passes are one plus the ticks before the first termination signal |
| Poller.HandleEventsDone | poller.go:51-53 | no event after a termination signal is ever looked at |
| Poller.ReloadSignalIgnored | poller.go:48-50 | a hang-up signal, wherever it arrives in the event sequence, changes nothing |
| Poller.FailedTickIgnored | poller.go:45-47 | a failed pass counts as a pass, changes nothing else, and the loop goes on |
| Poller.HandleEventsOrder | poller.go:42-55 | however events interleave, every reload in the trace comes right after a write |
| Poller.SteadyOutputNoEffects | poller.go:45-47 | once the writer holds the output's digest, ticks rendering the same output do nothing |
| Poller.SteadyOutputWritesOnce | poller.go:32-56 | while the output stays the same, the loop writes once if it differs from the last digest and never otherwise, and reloads at most once |
| Poller.TwoPasses | poller.go:32-56 | a first pass plus one tick rendering "A","A" write and reload once; rendering "A","B" write and reload twice, each write before its reload |

## Left out

- AWS clients and `logAwsError` are left out. `DescribeInstances` and `DescribeInstanceHealth` are network calls, so the provider is a parameter that returns a result or an error. The logging of provider errors has no effect on behaviour.
- The AWS meaning of a `DescribeInstances` query with an empty id list is not modelled: it returns whatever the provider parameter says.
- A missing instance id in a `DescribeInstances` response (lookup.go:35), or a missing health state when `CheckHealth` is set (lookup.go:130), makes Go dereference nil and panic. Without the check a missing state is never read, and a missing id in the health response is passed on as a nil entry of `InstanceIDs` (lookup.go:131, 135). The model takes every id and state as present.
- `text/template` loading, parsing and execution are an external library. A pass receives the render outcome as a value. So the data flow from the template's `lookupService` calls into the rendered bytes is not modelled. `LookupService` is modelled on its own.
- MD5 is a parameter from bytes to a 16-byte digest, because only digest equality matters. A consequence kept in the model: if the output's digest happened to be all zeros, the first pass would write nothing.
- `ioutil.WriteFile` and its file mode are file I/O. They appear only as a `WroteFile` effect, and their error is ignored as in the source.
- Writer.ReloadService: the boolean result of running the reload command only chooses a log message, so the effect records just the command. Exec models what running it does, including the panic that would end the agent.
- The goroutines and the unbuffered channel are left out. The two pipe drainers run concurrently with `Wait`, so their lines may interleave in any order; a schedule parameter fixes one interleaving. The race in which `Wait` closes pipes before the drainers finish, and sends after the channel is closed, are not modelled.
- `bash -c` process creation is replaced by a `CommandRun` value describing the pipes, the streams and the `Wait` result.
- Exec.RunCommand: when only the standard-output pipe fails to be set up, the model records just that the agent panics. The standard-error lines logged before the panic, and the exact moment of the panic, depend on goroutine scheduling, so they are not modelled. Pipe setup can fail at run time, for example when the process runs out of file descriptors. The model also assumes every command exits: `cmd.Wait()` (exec.go:49) has no timeout, so a reload command that never exits blocks `executeTask`, the pass (writer.go:63) and the whole poll loop. Because `signal.Notify` (poller.go:39) has already taken over interrupt and terminate, those signals are then queued and never acted on, and only SIGKILL stops the agent.
- Poller.HandleEvents: a panic while a pass runs the reload command (exec.go:46, reached through writer.go:63) is not carried into the loop, which models each pass by its effects; `Exec.StdoutPipeErrorPanics` states that panic on its own.
- Stream data is a sequence of characters, not bytes. `len(line) > prefixLen` compares byte lengths, which holds exactly when the trimmed segment is non-empty, as it does on characters.
- Timers and signal registration are real OS facilities. The loop consumes a sequence of events in the order `select` takes them. A hang-up, interrupt or terminate signal that arrives before `signal.Notify` runs (poller.go:39-40), that is, during the first pass (poller.go:34), takes its default action and ends the process, possibly in the middle of `WriteFile` (writer.go:104); that is not modelled. The model ends when the given events run out (`Waiting`); the real loop waits forever.
- YAML loading, the command-line flags and logging are I/O and library glue. The configuration shapes are plain datatypes.
- Reloading the configuration on a hang-up signal is an unimplemented TODO in the source, so the event is a no-op here too.

=== FILE: configuration.dfy ===
/**
 The shapes of the agent's configuration document, as the YAML loader binds
 them. Loading and parsing the file are outside the model: the core only
 ever reads these values.
 */
module Configuration {

  /** Go's `int` on the 64-bit targets the agent is built for. */
  type Int64 = x: int | -0x8000_0000_0000_0000 <= x < 0x8000_0000_0000_0000

  /** Settings of an "elb" service: the load balancer, its region, and whether only healthy members count. */
  datatype ElbConfig = ElbConfig(checkHealth: bool, name: string, region: string)

  /** Settings of a "search" service: the region and the filter expressions `key|value...`. */
  datatype SearchConfig = SearchConfig(region: string, filters: seq<string>)

  /**
   One configured service. `serviceType` selects which of the two settings
   blocks is used; the other is carried along unused, as in the YAML shape.
   */
  datatype ServiceConfig = ServiceConfig(serviceType: string, elb: ElbConfig, search: SearchConfig)

  /** The whole configuration; `command` and `check` are empty when not configured. */
  datatype Config = Config(
    pollingSeconds: Int64,
    source: string,
    destination: string,
    command: string,
    check: string,
    services: map<string, ServiceConfig>)
}

=== FILE: errors.dfy ===
/** The errors the reconciliation core can return, in place of Go's `error` interface. */
module Errors {

  datatype Error =
    /** An inventory provider call failed (auth, throttling, not found, ...). */
    | ProviderError(code: string, message: string)
    /** `lookupService` was asked for a name that is not configured. */
    | ServiceNotFound(name: string)
    /** A configured service has a type other than "elb" or "search". */
    | InvalidServiceType(serviceType: string)
    /** The template could not be loaded or parsed. */
    | TemplateLoadError(message: string)
    /** Executing the template failed (including a lookup error raised inside it). */
    | TemplateExecuteError(message: string)
}

=== FILE: exec.dfy ===
/**
 Running a reload command: how each output stream becomes prefixed log lines,
 how the two streams' lines reach the log, and how the command's status and the
 boolean result follow from the outcome of setting up pipes and waiting.

 Process creation, the shell and the operating system are not modelled: what
 they do is described by a `CommandRun` value handed in by the caller.
 */
module Exec {
  import opened Wrappers
  import opened GoStrings

  /** `TaskStatus.Status`: `Pending` until the command has been classified. */
  datatype Status = Pending | Error | Complete {
    predicate Terminal() { !Pending? }
  }

  /** The line terminator `ReadString` reads up to. */
  const Newline: char := '\n'

  const OutPrefix := "out > "
  const ErrPrefix := "err > "

  /** How a pipe's byte stream ends: at EOF, or with a read error after `data`. */
  datatype StreamEnd = Eof | ReadError

  /** Everything one pipe delivers before it ends. */
  datatype Stream = Stream(data: string, end: StreamEnd)

  /** What `cmd.Wait()` reports: success, a non-zero exit status, or another failure (not started, I/O). */
  datatype WaitResult = WaitOk | ExitStatus(code: int) | OtherWaitError

  /**
   The observable outcome of one command run: whether each pipe could be
   set up, what each stream carries, the arrival order of the two drainers'
   lines (`true` = the next line logged is from standard output), and what
   `Wait` returns.
   */
  datatype CommandRun = CommandRun(
    stdoutPipeFails: bool,
    stderrPipeFails: bool,
    stdout: Stream,
    stderr: Stream,
    arrival: seq<bool>,
    wait: WaitResult)

  /** The log line for one segment, if it is longer than the prefix once trimmed. */
  function Emit(prefix: string, segment: string): (lines: seq<string>)
    ensures |lines| <= 1
    ensures lines != [] <==> TrimSpace(segment) != []
    ensures lines != [] ==> |lines[0]| > |prefix| && lines[0][..|prefix|] == prefix && lines[0][|prefix|..] == TrimSpace(segment)
  {
    var line := prefix + TrimSpace(segment);
    if |line| > |prefix| then [line] else []
  }

  /**
   The lines logged for the newline-separated `segments` of a stream: every
   segment but the last was newline-terminated and is emitted; the last,
   unterminated one only when the stream ended at EOF.
   */
  function EmitSegments(prefix: string, segments: seq<string>, end: StreamEnd): seq<string>
    requires |segments| >= 1
    decreases |segments|
  {
    if |segments| == 1 then (if end == Eof then Emit(prefix, segments[0]) else [])
    else Emit(prefix, segments[0]) + EmitSegments(prefix, segments[1..], end)
  }

  /**
   Reference definition of what a drained pipe logs: cut the data at every
   newline and emit the segments as `EmitSegments` says.
   */
  function PipeLines(prefix: string, s: Stream): seq<string> {
    EmitSegments(prefix, Split(s.data, Newline), s.end)
  }

  /** Every logged line is the prefix followed by a non-empty, trimmed payload. */
  predicate WellFormedLine(prefix: string, line: string) {
    && |line| > |prefix|
    && line[..|prefix|] == prefix
    && Trimmed(line[|prefix|..])
  }

  lemma EmitWellFormed(prefix: string, segment: string)
    ensures forall line :: line in Emit(prefix, segment) ==> WellFormedLine(prefix, line)
  {
    var line := prefix + TrimSpace(segment);
    assert line[..|prefix|] == prefix;
    assert line[|prefix|..] == TrimSpace(segment);
  }

  lemma {:induction false} EmitSegmentsWellFormed(prefix: string, segments: seq<string>, end: StreamEnd)
    requires |segments| >= 1
    ensures forall line :: line in EmitSegments(prefix, segments, end) ==> WellFormedLine(prefix, line)
    decreases |segments|
  {
    EmitWellFormed(prefix, segments[0]);
    if |segments| > 1 {
      EmitSegmentsWellFormed(prefix, segments[1..], end);
    }
  }

  /**
   Lines read from a pipe always carry the prefix and a non-empty payload with
   no surrounding white space.
   */
  lemma PipeLinesWellFormed(prefix: string, s: Stream)
    ensures forall line :: line in PipeLines(prefix, s) ==> WellFormedLine(prefix, line)
  {
    EmitSegmentsWellFormed(prefix, Split(s.data, Newline), s.end);
  }

  lemma {:induction false} EmitSegmentsLength(prefix: string, segments: seq<string>, end: StreamEnd)
    requires |segments| >= 1
    ensures |EmitSegments(prefix, segments, end)| <= |segments|
    decreases |segments|
  {
    if |segments| > 1 {
      EmitSegmentsLength(prefix, segments[1..], end);
    }
  }

  /** At most one line per newline-separated segment is logged. */
  lemma PipeLinesCount(prefix: string, s: Stream)
    ensures |PipeLines(prefix, s)| <= Count(s.data, Newline) + 1
  {
    EmitSegmentsLength(prefix, Split(s.data, Newline), s.end);
    SplitLength(s.data, Newline);
  }

  /** A segment is logged exactly when it holds something other than white space. */
  lemma EmitExactly(prefix: string, segment: string)
    ensures Emit(prefix, segment) != [] <==> !AllSpace(segment)
  {
    TrimSpaceEmpty(segment);
  }

  lemma EmitSegmentsCons(prefix: string, segment: string, rest: seq<string>, end: StreamEnd)
    requires |rest| >= 1
    ensures EmitSegments(prefix, [segment] + rest, end) == Emit(prefix, segment) + EmitSegments(prefix, rest, end)
  {
    assert ([segment] + rest)[1..] == rest;
  }

  /** Peeling the first newline-terminated segment off the stream. */
  lemma PipeLinesStep(prefix: string, data: string, end: StreamEnd)
    requires FirstIndex(data, Newline) < |data|
    ensures var k := FirstIndex(data, Newline);
            PipeLines(prefix, Stream(data, end))
              == Emit(prefix, data[..k]) + PipeLines(prefix, Stream(data[k + 1..], end))
  {
    var k := FirstIndex(data, Newline);
    SplitFirst(data, Newline);
    EmitSegmentsCons(prefix, data[..k], Split(data[k + 1..], Newline), end);
  }

  /** The last, unterminated segment is logged only at EOF. */
  lemma PipeLinesLast(prefix: string, data: string, end: StreamEnd)
    requires FirstIndex(data, Newline) == |data|
    ensures PipeLines(prefix, Stream(data, end)) == if end == Eof then Emit(prefix, data) else []
  {
    assert data[..|data|] == data;
    assert Split(data, Newline) == [data];
  }

  /** A segment read together with a trailing white-space character logs the same line. */
  lemma EmitTrailingSpace(prefix: string, data: string, k: nat)
    requires k < |data| && IsSpace(data[k])
    ensures Emit(prefix, data[..k + 1]) == Emit(prefix, data[..k])
  {
    assert data[..k + 1] == data[..k] + [data[k]];
    TrimSpaceAppendSpace(data[..k], data[k]);
  }

  /**
   The strings successive `ReadString` calls return and `readPipeOutput`
   goes on to format: every line up to and including its newline, then the
   unterminated remainder if the stream ended at EOF. After any other read
   error the remainder is dropped.
   */
  function ReadStrings(s: Stream): (texts: seq<string>)
    ensures s.end == Eof ==> texts != []
    decreases |s.data|
  {
    var k := FirstIndex(s.data, Newline);
    if k < |s.data| then [s.data[..k + 1]] + ReadStrings(Stream(s.data[k + 1..], s.end))
    else if s.end == Eof then [s.data]
    else []
  }

  /** A `ReadString` that finds a newline accounts for exactly that newline. */
  lemma ReadStringsCountStep(s: Stream)
    requires FirstIndex(s.data, Newline) < |s.data|
    ensures var rest := Stream(s.data[FirstIndex(s.data, Newline) + 1..], s.end);
            && |ReadStrings(s)| == 1 + |ReadStrings(rest)|
            && Count(s.data, Newline) == 1 + Count(rest.data, Newline)
  {
    CountThroughFirst(s.data, Newline);
  }

  /** Without a newline, only the EOF remainder is read. */
  lemma ReadStringsCountLast(s: Stream)
    requires FirstIndex(s.data, Newline) == |s.data|
    ensures |ReadStrings(s)| == if s.end == Eof then 1 else 0
    ensures Count(s.data, Newline) == 0
  {
    FirstIndexFirst(s.data, Newline);
    assert s.data[..|s.data|] == s.data;
    CountAbsent(s.data, Newline);
  }

  /** One string per newline, plus the final remainder when the stream ended at EOF. */
  lemma {:induction false} ReadStringsCount(s: Stream)
    ensures |ReadStrings(s)| == Count(s.data, Newline) + (if s.end == Eof then 1 else 0)
    decreases |s.data|
  {
    var k := FirstIndex(s.data, Newline);
    if k < |s.data| {
      ReadStringsCountStep(s);
      ReadStringsCount(Stream(s.data[k + 1..], s.end));
    } else {
      ReadStringsCountLast(s);
    }
  }

  /** Each string read, trimmed and logged behind the prefix when something is left. */
  function EmitAll(prefix: string, texts: seq<string>): seq<string>
    decreases |texts|
  {
    if texts == [] then [] else Emit(prefix, texts[0]) + EmitAll(prefix, texts[1..])
  }

  lemma EmitAllCons(prefix: string, read: string, texts: seq<string>)
    ensures EmitAll(prefix, [read] + texts) == Emit(prefix, read) + EmitAll(prefix, texts)
  {
    assert ([read] + texts)[1..] == texts;
  }

  /** What `readPipeOutput` logs, one `ReadString` at a time. */
  function ReadLines(prefix: string, s: Stream): seq<string> {
    EmitAll(prefix, ReadStrings(s))
  }

  lemma AppendAssoc<T>(a: seq<T>, b: seq<T>, c: seq<T>)
    ensures a + b + c == a + (b + c)
  {
  }

  /**
   One `ReadString` that finds a newline: the line it returns, newline
   included, logs what the segment before the newline logs.
   */
  lemma ReadLinesStep(prefix: string, s: Stream)
    requires FirstIndex(s.data, Newline) < |s.data|
    ensures var k := FirstIndex(s.data, Newline);
            ReadLines(prefix, s) == Emit(prefix, s.data[..k]) + ReadLines(prefix, Stream(s.data[k + 1..], s.end))
  {
    var k := FirstIndex(s.data, Newline);
    var texts := ReadStrings(Stream(s.data[k + 1..], s.end));
    assert ReadStrings(s) == [s.data[..k + 1]] + texts;
    assert EmitAll(prefix, ReadStrings(s)) == Emit(prefix, s.data[..k + 1]) + EmitAll(prefix, texts) by {
      EmitAllCons(prefix, s.data[..k + 1], texts);
    }
    assert Emit(prefix, s.data[..k + 1]) == Emit(prefix, s.data[..k]) by {
      assert s.data[k] == Newline;
      EmitTrailingSpace(prefix, s.data, k);
    }
    assert ReadLines(prefix, Stream(s.data[k + 1..], s.end)) == EmitAll(prefix, texts);
  }

  /** Reading line by line logs exactly what cutting the data at every newline gives. */
  lemma {:induction false} ReadLinesSplit(prefix: string, s: Stream)
    ensures ReadLines(prefix, s) == PipeLines(prefix, s)
    decreases |s.data|
  {
    var k := FirstIndex(s.data, Newline);
    if k < |s.data| {
      var line := Emit(prefix, s.data[..k]);
      var rest := Stream(s.data[k + 1..], s.end);
      assert ReadLines(prefix, s) == line + ReadLines(prefix, rest) by { ReadLinesStep(prefix, s); }
      assert ReadLines(prefix, rest) == PipeLines(prefix, rest) by { ReadLinesSplit(prefix, rest); }
      assert PipeLines(prefix, s) == line + PipeLines(prefix, rest) by { PipeLinesStep(prefix, s.data, s.end); }
    } else {
      assert ReadStrings(s) == if s.end == Eof then [s.data] else [];
      assert ReadLines(prefix, s) == if s.end == Eof then Emit(prefix, s.data) else [] by {
        if s.end == Eof {
          EmitAllCons(prefix, s.data, []);
          assert [s.data] + [] == [s.data];
        }
      }
      PipeLinesLast(prefix, s.data, s.end);
    }
  }

  /**
   `readPipeOutput`: the loop over `ReadString`. Every read that finds a
   newline returns without error and its line is logged; the read that finds
   none ends the loop, and its text is logged only when the error was EOF. It
   logs what cutting the stream at every newline gives.
   */
  method ReadPipeOutput(prefix: string, s: Stream) returns (lines: seq<string>)
    ensures lines == PipeLines(prefix, s)
  {
    lines := [];
    var rest := s.data;
    var k := FirstIndex(rest, Newline);
    while k < |rest|
      invariant k == FirstIndex(rest, Newline)
      invariant lines + EmitAll(prefix, ReadStrings(Stream(rest, s.end))) == ReadLines(prefix, s)
      decreases |rest|
    {
      var line := rest[..k + 1];
      var next := rest[k + 1..];
      var texts := ReadStrings(Stream(next, s.end));
      assert ReadStrings(Stream(rest, s.end)) == [line] + texts;
      EmitAllCons(prefix, line, texts);
      AppendAssoc(lines, Emit(prefix, line), EmitAll(prefix, texts));
      lines := lines + Emit(prefix, line);
      rest := next;
      k := FirstIndex(rest, Newline);
    }
    if s.end == Eof {
      assert ReadStrings(Stream(rest, s.end)) == [rest];
      EmitAllCons(prefix, rest, []);
      assert [rest] + [] == [rest];
      lines := lines + Emit(prefix, rest);
    }
    ReadLinesSplit(prefix, s);
  }

  /**
   The order in which the two drainers' lines reach the log: `arrival`
   picks the stream of each next line; once either stream is exhausted, or
   the schedule runs out, the remaining lines follow in stream order.
   */
  function Interleave(out: seq<string>, err: seq<string>, arrival: seq<bool>): (r: seq<string>)
    ensures |r| == |out| + |err|
    ensures multiset(r) == multiset(out) + multiset(err)
    decreases |out| + |err|
  {
    if out == [] then err
    else if err == [] then out
    else if arrival == [] then out + err
    else if arrival[0] then
      var r := [out[0]] + Interleave(out[1..], err, arrival[1..]);
      assert out == [out[0]] + out[1..];
      r
    else
      var r := [err[0]] + Interleave(out, err[1..], arrival[1..]);
      assert err == [err[0]] + err[1..];
      r
  }

  predicate HasPrefix(line: string, prefix: string) {
    |line| >= |prefix| && line[..|prefix|] == prefix
  }

  /** The lines of the log that carry `prefix`, in log order. */
  function WithPrefix(lines: seq<string>, prefix: string): seq<string>
    decreases |lines|
  {
    if lines == [] then []
    else (if HasPrefix(lines[0], prefix) then [lines[0]] else []) + WithPrefix(lines[1..], prefix)
  }

  lemma {:induction false} WithPrefixAll(lines: seq<string>, prefix: string)
    requires forall i :: 0 <= i < |lines| ==> HasPrefix(lines[i], prefix)
    ensures WithPrefix(lines, prefix) == lines
    decreases |lines|
  {
    if lines != [] {
      WithPrefixAll(lines[1..], prefix);
    }
  }

  lemma {:induction false} WithPrefixNone(lines: seq<string>, prefix: string)
    requires forall i :: 0 <= i < |lines| ==> !HasPrefix(lines[i], prefix)
    ensures WithPrefix(lines, prefix) == []
    decreases |lines|
  {
    if lines != [] {
      WithPrefixNone(lines[1..], prefix);
    }
  }

  lemma {:induction false} WithPrefixAppend(a: seq<string>, b: seq<string>, prefix: string)
    ensures WithPrefix(a + b, prefix) == WithPrefix(a, prefix) + WithPrefix(b, prefix)
    decreases |a|
  {
    if a == [] {
      assert a + b == b;
    } else {
      assert (a + b)[0] == a[0];
      assert (a + b)[1..] == a[1..] + b;
      WithPrefixAppend(a[1..], b, prefix);
    }
  }

  /** Lines that all carry `prefix` survive filtering, and lines that all lack it vanish. */
  lemma {:induction false} InterleaveKeepsLeft(out: seq<string>, err: seq<string>, arrival: seq<bool>, prefix: string)
    requires forall i :: 0 <= i < |out| ==> HasPrefix(out[i], prefix)
    requires forall i :: 0 <= i < |err| ==> !HasPrefix(err[i], prefix)
    ensures WithPrefix(Interleave(out, err, arrival), prefix) == out
    decreases |out| + |err|
  {
    if out == [] {
      WithPrefixNone(err, prefix);
    } else if err == [] {
      WithPrefixAll(out, prefix);
    } else if arrival == [] {
      WithPrefixAppend(out, err, prefix);
      WithPrefixAll(out, prefix);
      WithPrefixNone(err, prefix);
    } else if arrival[0] {
      var tail := Interleave(out[1..], err, arrival[1..]);
      WithPrefixAppend([out[0]], tail, prefix);
      InterleaveKeepsLeft(out[1..], err, arrival[1..], prefix);
      assert out == [out[0]] + out[1..];
    } else {
      var tail := Interleave(out, err[1..], arrival[1..]);
      WithPrefixAppend([err[0]], tail, prefix);
      InterleaveKeepsLeft(out, err[1..], arrival[1..], prefix);
    }
  }

  lemma {:induction false} InterleaveKeepsRight(out: seq<string>, err: seq<string>, arrival: seq<bool>, prefix: string)
    requires forall i :: 0 <= i < |out| ==> !HasPrefix(out[i], prefix)
    requires forall i :: 0 <= i < |err| ==> HasPrefix(err[i], prefix)
    ensures WithPrefix(Interleave(out, err, arrival), prefix) == err
    decreases |out| + |err|
  {
    if out == [] {
      WithPrefixAll(err, prefix);
    } else if err == [] {
      WithPrefixNone(out, prefix);
    } else if arrival == [] {
      WithPrefixAppend(out, err, prefix);
      WithPrefixNone(out, prefix);
      WithPrefixAll(err, prefix);
    } else if arrival[0] {
      var tail := Interleave(out[1..], err, arrival[1..]);
      WithPrefixAppend([out[0]], tail, prefix);
      InterleaveKeepsRight(out[1..], err, arrival[1..], prefix);
    } else {
      var tail := Interleave(out, err[1..], arrival[1..]);
      WithPrefixAppend([err[0]], tail, prefix);
      InterleaveKeepsRight(out, err[1..], arrival[1..], prefix);
      assert err == [err[0]] + err[1..];
    }
  }

  /**
   Whatever the arrival order, no standard-output line is lost or reordered:
   the standard-output lines of the log are exactly `out`, in order.
   */
  lemma InterleaveKeepsStdout(out: seq<string>, err: seq<string>, arrival: seq<bool>)
    requires forall i :: 0 <= i < |out| ==> HasPrefix(out[i], OutPrefix)
    requires forall i :: 0 <= i < |err| ==> HasPrefix(err[i], ErrPrefix)
    ensures WithPrefix(Interleave(out, err, arrival), OutPrefix) == out
  {
    forall i | 0 <= i < |err| ensures !HasPrefix(err[i], OutPrefix) {
      assert err[i][0] == ErrPrefix[0];
    }
    InterleaveKeepsLeft(out, err, arrival, OutPrefix);
  }

  /**
   Whatever the arrival order, no standard-error line is lost or reordered:
   the standard-error lines of the log are exactly `err`, in order.
   */
  lemma InterleaveKeepsStderr(out: seq<string>, err: seq<string>, arrival: seq<bool>)
    requires forall i :: 0 <= i < |out| ==> HasPrefix(out[i], OutPrefix)
    requires forall i :: 0 <= i < |err| ==> HasPrefix(err[i], ErrPrefix)
    ensures WithPrefix(Interleave(out, err, arrival), ErrPrefix) == err
  {
    forall i | 0 <= i < |out| ensures !HasPrefix(out[i], ErrPrefix) {
      assert out[i][0] == OutPrefix[0];
    }
    InterleaveKeepsRight(out, err, arrival, ErrPrefix);
  }

  /**
   How a command run ends for the agent: `Finished` with the final status of
   `runCommand` and everything `executeTask` logged, or `NilPipePanic` when a
   drainer reads from a standard-output pipe that was never set up, which
   panics and ends the whole agent.
   */
  datatype RunOutcome =
    | Finished(status: Status, log: seq<string>)
    | NilPipePanic

  /**
   `runCommand` as seen by `executeTask`. The standard-output pipe error is
   overwritten by the standard-error one before it is checked, so only the
   latter stops the run, before anything is started or logged. When only the
   standard-output pipe failed, the run starts and the drainer of that nil
   pipe panics. Otherwise both pipes are drained into the log and the status
   is `Complete` exactly when `Wait` succeeds.
   */
  function RunCommand(run: CommandRun): (r: RunOutcome)
    ensures r.NilPipePanic? <==> run.stdoutPipeFails && !run.stderrPipeFails
    ensures r.Finished? ==> r.status.Terminal()
    ensures (r.Finished? && r.status == Complete) <==>
              !run.stdoutPipeFails && !run.stderrPipeFails && run.wait == WaitOk
    ensures run.stderrPipeFails ==> r == Finished(Error, [])
    ensures !run.stdoutPipeFails && !run.stderrPipeFails ==>
              && r.Finished?
              && multiset(r.log) == multiset(PipeLines(OutPrefix, run.stdout)) + multiset(PipeLines(ErrPrefix, run.stderr))
  {
    var pipeErr := run.stderrPipeFails;
    if pipeErr then Finished(Error, [])
    else if run.stdoutPipeFails then NilPipePanic
    else
      var log := Interleave(PipeLines(OutPrefix, run.stdout), PipeLines(ErrPrefix, run.stderr), run.arrival);
      if run.wait != WaitOk then Finished(Error, log) else Finished(Complete, log)
  }

  /**
   `executeTask`: true exactly when the command's status ended `Complete`;
   `None` when the agent panics, whether or not `executeTask` returned first,
   which depends on scheduling.
   */
  function ExecuteTask(run: CommandRun): (ok: Option<bool>)
    ensures ok.None? <==> RunCommand(run).NilPipePanic?
    ensures ok.Some? ==> (ok.value <==> RunCommand(run).status == Complete)
    ensures ok == Some(true) <==> !run.stdoutPipeFails && !run.stderrPipeFails && run.wait == WaitOk
  {
    match RunCommand(run)
    case NilPipePanic => None
    case Finished(status, _) => Some(status == Complete)
  }

  /** Every line a drained pipe logs carries that pipe's prefix. */
  lemma PipeLinesPrefixed(prefix: string, s: Stream)
    ensures forall i :: 0 <= i < |PipeLines(prefix, s)| ==> HasPrefix(PipeLines(prefix, s)[i], prefix)
  {
    var lines := PipeLines(prefix, s);
    PipeLinesWellFormed(prefix, s);
    forall i | 0 <= i < |lines| ensures HasPrefix(lines[i], prefix) {
      assert lines[i] in lines;
    }
  }

  /**
   Every standard-output line is logged before `executeTask` returns, in
   stream order, whatever the arrival order.
   */
  lemma ExecuteTaskLogsAllStdout(run: CommandRun)
    requires !run.stdoutPipeFails && !run.stderrPipeFails
    ensures WithPrefix(RunCommand(run).log, OutPrefix) == PipeLines(OutPrefix, run.stdout)
  {
    PipeLinesPrefixed(OutPrefix, run.stdout);
    PipeLinesPrefixed(ErrPrefix, run.stderr);
    InterleaveKeepsStdout(PipeLines(OutPrefix, run.stdout), PipeLines(ErrPrefix, run.stderr), run.arrival);
  }

  /**
   Every standard-error line is logged before `executeTask` returns, in
   stream order, whatever the arrival order.
   */
  lemma ExecuteTaskLogsAllStderr(run: CommandRun)
    requires !run.stdoutPipeFails && !run.stderrPipeFails
    ensures WithPrefix(RunCommand(run).log, ErrPrefix) == PipeLines(ErrPrefix, run.stderr)
  {
    PipeLinesPrefixed(OutPrefix, run.stdout);
    PipeLinesPrefixed(ErrPrefix, run.stderr);
    InterleaveKeepsStderr(PipeLines(OutPrefix, run.stdout), PipeLines(ErrPrefix, run.stderr), run.arrival);
  }

  /**
   Once the standard-error pipe has failed, whether the standard-output one
   failed too makes no difference: its error was overwritten, and the run
   stops before anything is started.
   */
  lemma StdoutPipeErrorMasked(run: CommandRun)
    requires run.stderrPipeFails
    ensures RunCommand(run.(stdoutPipeFails := true)) == RunCommand(run.(stdoutPipeFails := false)) == Finished(Error, [])
  {
  }

  /** The overwritten error does not stop a run whose standard-output pipe alone failed: it panics. */
  lemma StdoutPipeErrorPanics(run: CommandRun)
    requires !run.stderrPipeFails
    ensures RunCommand(run.(stdoutPipeFails := true)) == NilPipePanic
    ensures ExecuteTask(run.(stdoutPipeFails := true)).None?
  {
  }
}

=== FILE: gostrings.dfy ===
/**
 The two functions of Go's `strings` package the core relies on: `TrimSpace`
 (with `unicode.IsSpace` as its notion of white space) and `Split` on a
 single-character separator, together with the `Join` that undoes `Split`.
 */
module GoStrings {

  /**
   Go's `unicode.IsSpace`: the code points of Unicode's White_Space property
   (the Latin-1 switch of the Go function lists the same ones below U+0100).
   */
  predicate IsSpace(c: char) {
    var n := c as int;
    (0x09 <= n <= 0x0D) || n == 0x20 || n == 0x85 || n == 0xA0 || n == 0x1680
    || (0x2000 <= n <= 0x200A) || n == 0x2028 || n == 0x2029 || n == 0x202F
    || n == 0x205F || n == 0x3000
  }

  /** Every character of `s` is white space. */
  predicate AllSpace(s: string) {
    forall i :: 0 <= i < |s| ==> IsSpace(s[i])
  }

  lemma AllSpaceConcat(a: string, b: string)
    requires AllSpace(a) && AllSpace(b)
    ensures AllSpace(a + b)
  {
  }

  lemma AllSpaceCons(s: string)
    requires |s| > 0
    ensures AllSpace(s) <==> IsSpace(s[0]) && AllSpace(s[1..])
  {
    if IsSpace(s[0]) && AllSpace(s[1..]) {
      forall i | 0 <= i < |s| ensures IsSpace(s[i]) {
        if i > 0 { assert s[i] == s[1..][i - 1]; }
      }
    }
  }

  /**
   `strings.TrimLeftFunc(s, unicode.IsSpace)`: the suffix of `s` after its
   longest white-space prefix.
   */
  function TrimLeftSpace(s: string): (r: string)
    ensures |r| <= |s| && r == s[|s| - |r|..]
    ensures r == [] || !IsSpace(r[0])
    decreases |s|
  {
    if |s| > 0 && IsSpace(s[0]) then TrimLeftSpace(s[1..]) else s
  }

  /** What `TrimLeftSpace` drops is white space. */
  lemma {:induction false} TrimLeftSkipped(s: string)
    ensures AllSpace(s[..|s| - |TrimLeftSpace(s)|])
    decreases |s|
  {
    if |s| > 0 && IsSpace(s[0]) {
      var r := TrimLeftSpace(s[1..]);
      assert TrimLeftSpace(s) == r;
      TrimLeftSkipped(s[1..]);
      var skipped := s[1..][..|s| - 1 - |r|];
      assert AllSpace([s[0]]);
      AllSpaceConcat([s[0]], skipped);
      assert s[..|s| - |r|] == [s[0]] + skipped;
    }
  }

  /**
   `strings.TrimRightFunc(s, unicode.IsSpace)`: the prefix of `s` before its
   longest white-space suffix.
   */
  function TrimRightSpace(s: string): (r: string)
    ensures |r| <= |s| && r == s[..|r|]
    ensures r == [] || !IsSpace(r[|r| - 1])
    decreases |s|
  {
    if |s| > 0 && IsSpace(s[|s| - 1]) then TrimRightSpace(s[..|s| - 1]) else s
  }

  /** What `TrimRightSpace` drops is white space. */
  lemma {:induction false} TrimRightSkipped(s: string)
    ensures AllSpace(s[|TrimRightSpace(s)|..])
    decreases |s|
  {
    if |s| > 0 && IsSpace(s[|s| - 1]) {
      var r := TrimRightSpace(s[..|s| - 1]);
      TrimRightSkipped(s[..|s| - 1]);
      assert s[|r|..] == s[..|s| - 1][|r|..] + [s[|s| - 1]];
      AllSpaceConcat(s[..|s| - 1][|r|..], [s[|s| - 1]]);
    }
  }

  /** `s` neither starts nor ends with white space. */
  predicate Trimmed(s: string) {
    s == [] || (!IsSpace(s[0]) && !IsSpace(s[|s| - 1]))
  }

  /**
   Go's `strings.TrimSpace`: `s` without its leading and trailing white
   space, so what is left is `Trimmed`. Defined one character at a time;
   `TrimSpaceLeftRight` shows it is Go's `TrimRightFunc(TrimLeftFunc(s))`.
   */
  function TrimSpace(s: string): (r: string)
    ensures |r| <= |s|
    ensures Trimmed(r)
    decreases |s|
  {
    if |s| > 0 && IsSpace(s[0]) then TrimSpace(s[1..])
    else if |s| > 0 && IsSpace(s[|s| - 1]) then TrimSpace(s[..|s| - 1])
    else s
  }

  /** `TrimSpace` trims the front first and then the back, as Go's `TrimFunc` does. */
  lemma {:induction false} TrimSpaceLeftRight(s: string)
    ensures TrimSpace(s) == TrimRightSpace(TrimLeftSpace(s))
    decreases |s|
  {
    if |s| > 0 && IsSpace(s[0]) {
      TrimSpaceLeftRight(s[1..]);
    } else if |s| > 0 && IsSpace(s[|s| - 1]) {
      var t := s[..|s| - 1];
      TrimSpaceLeftRight(t);
      assert t[0] == s[0];
      assert TrimLeftSpace(t) == t;
      assert TrimLeftSpace(s) == s;
    } else {
      assert TrimLeftSpace(s) == s;
      assert TrimRightSpace(s) == s;
    }
  }

  /** Nothing is left after trimming exactly when `s` is all white space. */
  lemma TrimSpaceEmpty(s: string)
    ensures TrimSpace(s) == [] <==> AllSpace(s)
  {
    TrimSpaceLeftRight(s);
    var left := TrimLeftSpace(s);
    var n := |s| - |left|;
    if TrimRightSpace(left) == [] {
      TrimLeftSkipped(s);
      TrimRightSkipped(left);
      assert left[0..] == left;
      assert s == s[..n] + left;
      AllSpaceConcat(s[..n], left);
    } else {
      assert s[n] == left[0];
    }
  }

  /** Number of white-space characters `TrimSpace` removes from the front of `s`. */
  function LeadingSpace(s: string): (n: nat)
    ensures n <= |s|
  {
    |s| - |TrimLeftSpace(s)|
  }

  /**
   What `TrimSpace` keeps is the infix of `s` between its leading and its
   trailing white space.
   */
  lemma TrimSpaceInfix(s: string)
    ensures LeadingSpace(s) + |TrimSpace(s)| <= |s|
    ensures TrimSpace(s) == s[LeadingSpace(s)..LeadingSpace(s) + |TrimSpace(s)|]
  {
    var left := TrimLeftSpace(s);
    var t := TrimSpace(s);
    var n := LeadingSpace(s);
    assert n == |s| - |left| && left == s[n..];
    assert |t| <= |left| && t == left[..|t|] by { TrimSpaceLeftRight(s); }
    PrefixOfSuffix(s, left, t, n);
  }

  /** A prefix `u` of the suffix `t` of `s` that starts at index `n` is an infix of `s`. */
  lemma PrefixOfSuffix(s: string, t: string, u: string, n: nat)
    requires |t| <= |s| && n == |s| - |t| && t == s[n..]
    requires |u| <= |t| && u == t[..|u|]
    ensures n + |u| <= |s| && u == s[n..n + |u|]
  {
  }

  /** What `TrimSpace` removes in front is white space only. */
  lemma TrimSpaceLeading(s: string)
    ensures AllSpace(s[..LeadingSpace(s)])
  {
    TrimLeftSkipped(s);
  }

  /** What `TrimSpace` removes at the back is white space only. */
  lemma TrimSpaceTrailing(s: string)
    ensures LeadingSpace(s) + |TrimSpace(s)| <= |s|
    ensures AllSpace(s[LeadingSpace(s) + |TrimSpace(s)|..])
  {
    var left := TrimLeftSpace(s);
    var t := TrimSpace(s);
    var n := LeadingSpace(s);
    assert n == |s| - |left| && left == s[n..];
    assert |t| <= |left| && AllSpace(left[|t|..]) by {
      TrimSpaceLeftRight(s);
      TrimRightSkipped(left);
    }
    SpaceAfterPrefixOfSuffix(s, left, t, n);
  }

  /**
   White space after a prefix `u` of the suffix `t` of `s` that starts at
   index `n` is white space in `s` too.
   */
  lemma SpaceAfterPrefixOfSuffix(s: string, t: string, u: string, n: nat)
    requires |t| <= |s| && n == |s| - |t| && t == s[n..]
    requires |u| <= |t| && AllSpace(t[|u|..])
    ensures n + |u| <= |s| && AllSpace(s[n + |u|..])
  {
    SuffixOfSuffix(s, t, |u|);
  }

  /** A suffix of a suffix of `s` is a suffix of `s`. */
  lemma SuffixOfSuffix(s: string, t: string, n: nat)
    requires |t| <= |s| && t == s[|s| - |t|..]
    requires n <= |t|
    ensures s[|s| - |t| + n..] == t[n..]
  {
  }

  lemma {:induction false} TrimLeftAppend(s: string, c: char)
    requires IsSpace(c)
    ensures TrimLeftSpace(s + [c]) == if AllSpace(s) then [] else TrimLeftSpace(s) + [c]
    decreases |s|
  {
    var t := s + [c];
    if |s| == 0 {
      assert t[1..] == [];
    } else {
      AllSpaceCons(s);
      assert t[0] == s[0];
      if IsSpace(s[0]) {
        assert t[1..] == s[1..] + [c];
        TrimLeftAppend(s[1..], c);
      }
    }
  }

  lemma TrimRightAppend(s: string, c: char)
    requires IsSpace(c)
    ensures TrimRightSpace(s + [c]) == TrimRightSpace(s)
  {
    assert (s + [c])[..|s|] == s;
  }

  /** A trailing white-space character (the `'\n'` that `ReadString` keeps) does not change the trimmed text. */
  lemma TrimSpaceAppendSpace(s: string, c: char)
    requires IsSpace(c)
    ensures TrimSpace(s + [c]) == TrimSpace(s)
  {
    TrimSpaceLeftRight(s);
    TrimSpaceLeftRight(s + [c]);
    TrimLeftAppend(s, c);
    if !AllSpace(s) {
      TrimRightAppend(TrimLeftSpace(s), c);
    }
  }

  /** Trimming leaves trimmed text unchanged. */
  lemma TrimSpaceOfTrimmed(s: string)
    requires Trimmed(s)
    ensures TrimSpace(s) == s
  {
  }

  /** Trimming twice is trimming once. */
  lemma TrimSpaceIdempotent(s: string)
    ensures TrimSpace(TrimSpace(s)) == TrimSpace(s)
  {
    TrimSpaceOfTrimmed(TrimSpace(s));
  }

  /** Index of the first `c` in `s`, or `|s|` when there is none. */
  function FirstIndex(s: string, c: char): (k: nat)
    ensures k <= |s|
    ensures k < |s| ==> s[k] == c
  {
    if |s| == 0 then 0
    else if s[0] == c then 0
    else 1 + FirstIndex(s[1..], c)
  }

  /** No `c` occurs before the index `FirstIndex` reports. */
  lemma {:induction false} FirstIndexFirst(s: string, c: char)
    ensures c !in s[..FirstIndex(s, c)]
    decreases |s|
  {
    if |s| > 0 && s[0] != c {
      var k := FirstIndex(s, c);
      FirstIndexFirst(s[1..], c);
      assert s[..k] == [s[0]] + s[1..][..k - 1];
    }
  }

  /** Number of occurrences of `c` in `s`. */
  function Count(s: string, c: char): nat {
    if |s| == 0 then 0 else (if s[0] == c then 1 else 0) + Count(s[1..], c)
  }

  lemma {:induction false} CountAppend(a: string, b: string, c: char)
    ensures Count(a + b, c) == Count(a, c) + Count(b, c)
    decreases |a|
  {
    if |a| == 0 {
      assert a + b == b;
    } else {
      assert (a + b)[1..] == a[1..] + b;
      CountAppend(a[1..], b, c);
    }
  }

  lemma {:induction false} CountAbsent(s: string, c: char)
    requires c !in s
    ensures Count(s, c) == 0
    decreases |s|
  {
    if |s| > 0 {
      CountAbsent(s[1..], c);
    }
  }

  /**
   Go's `strings.Split(s, sep)` for a one-character separator: the maximal
   separator-free pieces between occurrences of `c`, so `""` gives `[""]`
   and `"a|"` gives `["a", ""]`.
   */
  function Split(s: string, c: char): (parts: seq<string>)
    ensures |parts| >= 1
    ensures parts[0] == s[..FirstIndex(s, c)]
    decreases |s|
  {
    var k := FirstIndex(s, c);
    if k == |s| then
      assert s[..k] == s;
      [s]
    else
      [s[..k]] + Split(s[k + 1..], c)
  }

  /** The first piece is cut off at the first separator. */
  lemma SplitFirst(s: string, c: char)
    requires FirstIndex(s, c) < |s|
    ensures Split(s, c) == [s[..FirstIndex(s, c)]] + Split(s[FirstIndex(s, c) + 1..], c)
  {
    var k := FirstIndex(s, c);
    var rest := Split(s[k + 1..], c);
    assert Split(s, c) == [s[..k]] + rest;
  }

  /** No piece contains the separator. */
  lemma {:induction false} SplitPieces(s: string, c: char)
    ensures forall i :: 0 <= i < |Split(s, c)| ==> c !in Split(s, c)[i]
    decreases |s|
  {
    var k := FirstIndex(s, c);
    FirstIndexFirst(s, c);
    if k == |s| {
      assert s[..k] == s;
    } else {
      var parts := Split(s, c);
      var rest := Split(s[k + 1..], c);
      SplitPieces(s[k + 1..], c);
      assert parts == [s[..k]] + rest;
      forall i | 0 <= i < |parts| ensures c !in parts[i] {
        if i > 0 { assert parts[i] == rest[i - 1]; }
      }
    }
  }

  /** Go's `strings.Join(parts, sep)` for a one-character separator. */
  function Join(parts: seq<string>, c: char): string
    decreases |parts|
  {
    if |parts| == 0 then ""
    else if |parts| == 1 then parts[0]
    else parts[0] + [c] + Join(parts[1..], c)
  }

  /** Up to and including its first occurrence, `s` holds exactly one `c`. */
  lemma CountThroughFirst(s: string, c: char)
    requires FirstIndex(s, c) < |s|
    ensures Count(s, c) == 1 + Count(s[FirstIndex(s, c) + 1..], c)
  {
    var k := FirstIndex(s, c);
    FirstIndexFirst(s, c);
    assert s == s[..k] + ([c] + s[k + 1..]);
    CountAppend(s[..k], [c] + s[k + 1..], c);
    CountAbsent(s[..k], c);
    assert ([c] + s[k + 1..])[1..] == s[k + 1..];
  }

  /** `Split` yields one more piece than there are separators. */
  lemma {:induction false} SplitLength(s: string, c: char)
    ensures |Split(s, c)| == Count(s, c) + 1
    decreases |s|
  {
    var k := FirstIndex(s, c);
    FirstIndexFirst(s, c);
    if k == |s| {
      assert s[..k] == s;
      CountAbsent(s, c);
    } else {
      assert s == s[..k] + ([c] + s[k + 1..]);
      CountAppend(s[..k], [c] + s[k + 1..], c);
      CountAbsent(s[..k], c);
      assert ([c] + s[k + 1..])[1..] == s[k + 1..];
      SplitLength(s[k + 1..], c);
    }
  }

  /** There is a second piece exactly when the separator occurs. */
  lemma SplitSingle(s: string, c: char)
    ensures |Split(s, c)| < 2 <==> c !in s
    ensures c !in s ==> Split(s, c) == [s]
  {
    var k := FirstIndex(s, c);
    FirstIndexFirst(s, c);
    if k == |s| {
      assert s[..k] == s;
    } else {
      assert s[k] in s;
    }
  }

  /** Joining the pieces with the separator gives back the original string. */
  lemma {:induction false} JoinSplit(s: string, c: char)
    ensures Join(Split(s, c), c) == s
    decreases |s|
  {
    var k := FirstIndex(s, c);
    if k == |s| {
      assert s[..k] == s;
    } else {
      var rest := Split(s[k + 1..], c);
      var parts := Split(s, c);
      assert parts == [s[..k]] + rest;
      assert parts[1..] == rest;
      assert Join(parts, c) == s[..k] + [c] + Join(rest, c);
      JoinSplit(s[k + 1..], c);
      assert s == s[..k] + [c] + s[k + 1..];
    }
  }

  /** Splitting a join of separator-free pieces gives back the pieces. */
  lemma {:induction false} SplitJoin(parts: seq<string>, c: char)
    requires |parts| >= 1
    requires forall i :: 0 <= i < |parts| ==> c !in parts[i]
    ensures Split(Join(parts, c), c) == parts
    decreases |parts|
  {
    var s := Join(parts, c);
    if |parts| == 1 {
      assert FirstIndex(s, c) == |s|;
    } else {
      var p := parts[0];
      assert s == p + ([c] + Join(parts[1..], c));
      assert s[|p|] == c;
      assert s[..|p|] == p;
      assert FirstIndex(s, c) == |p| by {
        FirstIndexFirst(s, c);
      }
      assert s[|p| + 1..] == Join(parts[1..], c);
      SplitJoin(parts[1..], c);
    }
  }
}

=== FILE: lookup.dfy ===
/**
 The inventory lookups: parsing the configured search filters, flattening the
 provider's reservations into instance records, selecting the load balancer's
 member ids, and the error shape of the two lookup strategies.

 The provider (EC2 and ELB) is a pair of total functions handed in by the
 caller; each lookup reports the provider calls it issued, so that "no call
 after an error" can be stated.
 */
module Lookup {
  import opened Wrappers
  import opened Errors
  import opened GoStrings
  import opened Configuration

  /** The separator between a filter's name and its values. */
  const Bar: char := '|'

  /** An EC2 search filter: a trimmed name and one or more trimmed values. */
  datatype Filter = Filter(name: string, values: seq<string>)

  function TrimEach(parts: seq<string>): (r: seq<string>)
    ensures |r| == |parts|
    ensures forall i :: 0 <= i < |r| ==> r[i] == TrimSpace(parts[i])
  {
    seq(|parts|, i requires 0 <= i < |parts| => TrimSpace(parts[i]))
  }

  /**
   `createFilter`: the text before the first `|` is the name, every later
   `|`-separated piece is a value, all trimmed. A string without `|` gives no
   filter; otherwise there is one value per `|`, so `"key|"` gives the single
   value `""`.
   */
  function CreateFilter(s: string): (r: Option<Filter>)
    ensures r.None? <==> Bar !in s
    ensures r.Some? ==> |r.value.values| == Count(s, Bar)
  {
    var parts := Split(s, Bar);
    SplitSingle(s, Bar);
    SplitLength(s, Bar);
    if |parts| < 2 then None
    else
      Some(Filter(TrimSpace(parts[0]), TrimEach(parts[1..])))
  }

  /** The name is the trimmed text before the first `|`. */
  lemma CreateFilterName(s: string)
    requires Bar in s
    ensures CreateFilter(s).Some? && CreateFilter(s).value.name == TrimSpace(s[..FirstIndex(s, Bar)])
  {
  }

  /** A filter part is trimmed and free of the separator. */
  predicate CleanPart(p: string) {
    Bar !in p && Trimmed(p)
  }

  lemma TrimSpaceClean(p: string)
    requires Bar !in p
    ensures CleanPart(TrimSpace(p))
  {
    TrimSpaceInfix(p);
  }

  lemma TrimEachClean(ps: seq<string>)
    requires forall i :: 0 <= i < |ps| ==> CleanPart(ps[i])
    ensures TrimEach(ps) == ps
  {
    forall i | 0 <= i < |ps| ensures TrimSpace(ps[i]) == ps[i] {
      TrimSpaceOfTrimmed(ps[i]);
    }
  }

  /** Every part of a parsed filter is trimmed and free of `|`. */
  lemma CreateFilterClean(s: string)
    requires CreateFilter(s).Some?
    ensures CleanPart(CreateFilter(s).value.name)
    ensures forall i :: 0 <= i < |CreateFilter(s).value.values| ==> CleanPart(CreateFilter(s).value.values[i])
  {
    var parts := Split(s, Bar);
    var f := CreateFilter(s).value;
    SplitPieces(s, Bar);
    TrimSpaceClean(parts[0]);
    forall i | 0 <= i < |f.values| ensures CleanPart(f.values[i]) {
      assert f.values[i] == TrimSpace(parts[i + 1]);
      TrimSpaceClean(parts[i + 1]);
    }
  }

  /**
   Writing a filter in the configuration syntax `name|v1|...|vn` and parsing it
   back gives the same filter, provided its parts are already trimmed and free
   of `|`.
   */
  lemma FilterRoundTrip(f: Filter)
    requires |f.values| >= 1
    requires CleanPart(f.name)
    requires forall i :: 0 <= i < |f.values| ==> CleanPart(f.values[i])
    ensures CreateFilter(Join([f.name] + f.values, Bar)) == Some(f)
  {
    var parts := [f.name] + f.values;
    var s := Join(parts, Bar);
    assert Split(s, Bar) == parts by {
      forall i | 0 <= i < |parts| ensures Bar !in parts[i] {
        if i > 0 { assert parts[i] == f.values[i - 1]; }
      }
      SplitJoin(parts, Bar);
    }
    assert parts[1..] == f.values;
    assert TrimEach(f.values) == f.values by {
      TrimEachClean(f.values);
    }
    TrimSpaceOfTrimmed(f.name);
    CreateFilterOfPieces(s);
  }

  /**
   Parsing `p0|p1|...|pn` for any `|`-free pieces: the name is the trimmed
   first piece and the values are the trimmed later pieces, in order. With
   `JoinSplit` this describes the parse of every string.
   */
  lemma FilterOfJoin(parts: seq<string>)
    requires |parts| >= 2
    requires forall i :: 0 <= i < |parts| ==> Bar !in parts[i]
    ensures CreateFilter(Join(parts, Bar)) == Some(Filter(TrimSpace(parts[0]), TrimEach(parts[1..])))
  {
    SplitJoin(parts, Bar);
    CreateFilterOfPieces(Join(parts, Bar));
  }

  lemma CreateFilterOfPieces(s: string)
    requires |Split(s, Bar)| >= 2
    ensures var parts := Split(s, Bar);
            CreateFilter(s) == Some(Filter(TrimSpace(parts[0]), TrimEach(parts[1..])))
  {
  }

  /** How many of the filter expressions contain a `|`. */
  function CountWellFormed(ss: seq<string>): nat {
    if ss == [] then 0 else (if Bar in ss[0] then 1 else 0) + CountWellFormed(ss[1..])
  }

  /** The filter list contributed by one expression: its filter, or nothing. */
  function FilterOf(s: string): (r: seq<Filter>)
    ensures |r| == if Bar in s then 1 else 0
  {
    match CreateFilter(s)
    case None => []
    case Some(f) => [f]
  }

  /**
   `createFilters`: the filters of the well-formed expressions, in input
   order; the malformed ones are dropped.
   */
  function CreateFilters(ss: seq<string>): (r: seq<Filter>)
    ensures |r| == CountWellFormed(ss)
  {
    if ss == [] then [] else FilterOf(ss[0]) + CreateFilters(ss[1..])
  }

  /** A filter is produced exactly when some input expression parses to it. */
  lemma {:induction false} CreateFiltersMembers(ss: seq<string>, f: Filter)
    ensures f in CreateFilters(ss) <==> exists i :: 0 <= i < |ss| && CreateFilter(ss[i]) == Some(f)
    decreases |ss|
  {
    if ss != [] {
      var tail := ss[1..];
      assert CreateFilters(ss) == FilterOf(ss[0]) + CreateFilters(tail);
      assert f in FilterOf(ss[0]) <==> CreateFilter(ss[0]) == Some(f);
      CreateFiltersMembers(tail, f);
      if f in CreateFilters(tail) {
        var i :| 0 <= i < |tail| && CreateFilter(tail[i]) == Some(f);
        assert ss[i + 1] == tail[i];
      }
      if exists i :: 0 <= i < |ss| && CreateFilter(ss[i]) == Some(f) {
        var i :| 0 <= i < |ss| && CreateFilter(ss[i]) == Some(f);
        if i > 0 {
          assert tail[i - 1] == ss[i];
        }
      }
    }
  }

  /** `createFilters` works expression by expression, so it keeps the input order. */
  lemma {:induction false} CreateFiltersAppend(a: seq<string>, b: seq<string>)
    ensures CreateFilters(a + b) == CreateFilters(a) + CreateFilters(b)
    decreases |a|
  {
    if a == [] {
      assert a + b == b;
    } else {
      assert (a + b)[0] == a[0];
      assert (a + b)[1..] == a[1..] + b;
      CreateFiltersAppend(a[1..], b);
    }
  }

  /** An instance as EC2 describes it; either address may be absent. */
  datatype Ec2Instance = Ec2Instance(instanceId: string, publicIpAddress: Option<string>, privateIpAddress: Option<string>)

  datatype Reservation = Reservation(instances: seq<Ec2Instance>)

  /** The response of `DescribeInstances`. */
  datatype DescribeInstancesOutput = DescribeInstancesOutput(reservations: seq<Reservation>)

  /** The record handed to the template. */
  datatype Instance = Instance(id: string, publicIp: Option<string>, privateIp: Option<string>)

  function ToInstance(i: Ec2Instance): Instance {
    Instance(i.instanceId, i.publicIpAddress, i.privateIpAddress)
  }

  /** Number of instances over all reservations. */
  function TotalInstances(rs: seq<Reservation>): nat {
    if rs == [] then 0 else |rs[0].instances| + TotalInstances(rs[1..])
  }

  /** The records of the instances of every reservation, reservation by reservation. */
  function Flatten(rs: seq<Reservation>): (r: seq<Instance>)
    ensures |r| == TotalInstances(rs)
  {
    if rs == [] then []
    else
      var head := rs[0].instances;
      seq(|head|, j requires 0 <= j < |head| => ToInstance(head[j])) + Flatten(rs[1..])
  }

  /** `buildInstanceList`: one record per instance of the response. */
  function BuildInstanceList(resp: DescribeInstancesOutput): (r: seq<Instance>)
    ensures |r| == TotalInstances(resp.reservations)
  {
    Flatten(resp.reservations)
  }

  /**
   Instance `j` of reservation `k` lands at position (instances in earlier
   reservations) + `j`, with its id and both addresses copied unchanged.
   */
  lemma {:induction false} BuildInstanceListOrder(resp: DescribeInstancesOutput, k: nat, j: nat)
    requires k < |resp.reservations| && j < |resp.reservations[k].instances|
    ensures TotalInstances(resp.reservations[..k]) + j < |BuildInstanceList(resp)|
    ensures var rec := BuildInstanceList(resp)[TotalInstances(resp.reservations[..k]) + j];
            var src := resp.reservations[k].instances[j];
            rec.id == src.instanceId && rec.publicIp == src.publicIpAddress && rec.privateIp == src.privateIpAddress
  {
    FlattenOrder(resp.reservations, k, j);
  }

  lemma {:induction false} FlattenOrder(rs: seq<Reservation>, k: nat, j: nat)
    requires k < |rs| && j < |rs[k].instances|
    ensures TotalInstances(rs[..k]) + j < |Flatten(rs)|
    ensures Flatten(rs)[TotalInstances(rs[..k]) + j] == ToInstance(rs[k].instances[j])
    decreases k
  {
    if k == 0 {
      assert rs[..k] == [];
    } else {
      assert rs[..k][1..] == rs[1..][..k - 1];
      assert TotalInstances(rs[..k]) == |rs[0].instances| + TotalInstances(rs[1..][..k - 1]);
      FlattenOrder(rs[1..], k - 1, j);
    }
  }

  /** Reservations are flattened independently, so earlier reservations come first. */
  lemma {:induction false} FlattenAppend(a: seq<Reservation>, b: seq<Reservation>)
    ensures Flatten(a + b) == Flatten(a) + Flatten(b)
    decreases |a|
  {
    if a == [] {
      assert a + b == b;
    } else {
      assert (a + b)[0] == a[0];
      assert (a + b)[1..] == a[1..] + b;
      FlattenAppend(a[1..], b);
    }
  }

  /** The health state the load balancer reports for one member. */
  datatype InstanceState = InstanceState(instanceId: string, state: string)

  const InService := "InService"

  /** Whether a member is kept: every member when health is not checked, else only those exactly "InService". */
  predicate Admitted(checkHealth: bool, st: InstanceState) {
    !checkHealth || st.state == InService
  }

  function MemberIds(states: seq<InstanceState>): (ids: seq<string>)
    ensures |ids| == |states|
    ensures forall i :: 0 <= i < |ids| ==> ids[i] == states[i].instanceId
  {
    seq(|states|, i requires 0 <= i < |states| => states[i].instanceId)
  }

  /** The member ids `ElbLookup.Lookup` goes on to describe, in the order the load balancer reported them. */
  function HealthyIds(states: seq<InstanceState>, checkHealth: bool): (ids: seq<string>)
    ensures |ids| <= |states|
  {
    if states == [] then []
    else
      var head := if Admitted(checkHealth, states[0]) then [states[0].instanceId] else [];
      head + HealthyIds(states[1..], checkHealth)
  }

  /** Without the health check every member is kept, in order. */
  lemma {:induction false} HealthyIdsUnchecked(states: seq<InstanceState>)
    ensures HealthyIds(states, false) == MemberIds(states)
    decreases |states|
  {
    if states != [] {
      HealthyIdsUnchecked(states[1..]);
    }
  }

  /** An id is selected exactly when some admitted member carries it. */
  lemma {:induction false} HealthyIdsMembers(states: seq<InstanceState>, checkHealth: bool, id: string)
    ensures id in HealthyIds(states, checkHealth) <==>
              exists i :: 0 <= i < |states| && states[i].instanceId == id && Admitted(checkHealth, states[i])
    decreases |states|
  {
    if states != [] {
      var tail := states[1..];
      HealthyIdsMembers(tail, checkHealth, id);
      if id in HealthyIds(states, checkHealth) && !(Admitted(checkHealth, states[0]) && states[0].instanceId == id) {
        var i :| 0 <= i < |tail| && tail[i].instanceId == id && Admitted(checkHealth, tail[i]);
        assert states[i + 1] == tail[i];
      }
      if exists i :: 0 <= i < |states| && states[i].instanceId == id && Admitted(checkHealth, states[i]) {
        var i :| 0 <= i < |states| && states[i].instanceId == id && Admitted(checkHealth, states[i]);
        if i > 0 {
          assert tail[i - 1] == states[i];
        }
      }
    }
  }

  /** The selection is made member by member, so it preserves the reported order. */
  lemma {:induction false} HealthyIdsAppend(a: seq<InstanceState>, b: seq<InstanceState>, checkHealth: bool)
    ensures HealthyIds(a + b, checkHealth) == HealthyIds(a, checkHealth) + HealthyIds(b, checkHealth)
    decreases |a|
  {
    if a == [] {
      assert a + b == b;
    } else {
      assert (a + b)[0] == a[0];
      assert (a + b)[1..] == a[1..] + b;
      HealthyIdsAppend(a[1..], b, checkHealth);
    }
  }

  /** What EC2 is asked to describe: either a filtered search or an explicit id list. */
  datatype Ec2Query = ByFilters(filters: seq<Filter>) | ByInstanceIds(ids: seq<string>)

  /** One call made to the inventory provider. */
  datatype ProviderCall =
    | DescribeInstances(region: string, query: Ec2Query)
    | DescribeInstanceHealth(region: string, loadBalancer: string)

  /** The inventory provider: what each of its calls returns, per region. */
  datatype Provider = Provider(
    describeInstances: (string, Ec2Query) -> Result<DescribeInstancesOutput, Error>,
    describeInstanceHealth: (string, string) -> Result<seq<InstanceState>, Error>)

  /** The outcome of one lookup together with the provider calls it issued, in order. */
  datatype LookupRun = LookupRun(result: Result<seq<Instance>, Error>, calls: seq<ProviderCall>)

  /** The query a search service sends: its well-formed filters, ANDed. */
  function SearchQuery(cfg: SearchConfig): Ec2Query {
    ByFilters(CreateFilters(cfg.filters))
  }

  /**
   `SearchLookup.Lookup`: one `DescribeInstances` call with the parsed
   filters; a provider error is returned as is, with no instances.
   */
  function SearchLookup(cfg: SearchConfig, p: Provider): (r: LookupRun)
    ensures r.calls == [DescribeInstances(cfg.region, SearchQuery(cfg))]
    ensures r.result.Err? <==> p.describeInstances(cfg.region, SearchQuery(cfg)).Err?
    ensures r.result.Err? ==> r.result.error == p.describeInstances(cfg.region, SearchQuery(cfg)).error
    ensures r.result.Ok? ==> r.result.value == BuildInstanceList(p.describeInstances(cfg.region, SearchQuery(cfg)).value)
  {
    var query := SearchQuery(cfg);
    var call := DescribeInstances(cfg.region, query);
    match p.describeInstances(cfg.region, query)
    case Err(e) => LookupRun(Err(e), [call])
    case Ok(resp) => LookupRun(Ok(BuildInstanceList(resp)), [call])
  }

  /**
   `ElbLookup.Lookup`: ask the load balancer for its members' health, keep the
   admitted ids, then describe exactly those instances. An error from either
   call is returned as is, with no instances, and nothing is called after it.
   */
  function ElbLookup(cfg: ElbConfig, p: Provider): (r: LookupRun)
    ensures |r.calls| >= 1 && r.calls[0] == DescribeInstanceHealth(cfg.region, cfg.name)
    ensures p.describeInstanceHealth(cfg.region, cfg.name).Err? ==>
              r.result == Err(p.describeInstanceHealth(cfg.region, cfg.name).error) && |r.calls| == 1
    ensures p.describeInstanceHealth(cfg.region, cfg.name).Ok? ==>
              var ids := HealthyIds(p.describeInstanceHealth(cfg.region, cfg.name).value, cfg.checkHealth);
              && r.calls == [DescribeInstanceHealth(cfg.region, cfg.name), DescribeInstances(cfg.region, ByInstanceIds(ids))]
              && (r.result.Err? <==> p.describeInstances(cfg.region, ByInstanceIds(ids)).Err?)
              && (r.result.Err? ==> r.result.error == p.describeInstances(cfg.region, ByInstanceIds(ids)).error)
              && (r.result.Ok? ==> r.result.value == BuildInstanceList(p.describeInstances(cfg.region, ByInstanceIds(ids)).value))
  {
    var healthCall := DescribeInstanceHealth(cfg.region, cfg.name);
    match p.describeInstanceHealth(cfg.region, cfg.name)
    case Err(e) => LookupRun(Err(e), [healthCall])
    case Ok(states) =>
      var query := ByInstanceIds(HealthyIds(states, cfg.checkHealth));
      var call := DescribeInstances(cfg.region, query);
      match p.describeInstances(cfg.region, query)
      case Err(e) => LookupRun(Err(e), [healthCall, call])
      case Ok(resp) => LookupRun(Ok(BuildInstanceList(resp)), [healthCall, call])
  }

  /**
   After a successful health query the instance query names exactly the
   admitted members' ids: with the health check only those "InService".
   */
  lemma ElbLookupQueriesAdmitted(cfg: ElbConfig, p: Provider, id: string)
    requires p.describeInstanceHealth(cfg.region, cfg.name).Ok?
    ensures |ElbLookup(cfg, p).calls| == 2 && ElbLookup(cfg, p).calls[1].DescribeInstances?
    ensures var states := p.describeInstanceHealth(cfg.region, cfg.name).value;
            var query := ElbLookup(cfg, p).calls[1].query;
            query.ByInstanceIds? &&
            (id in query.ids <==>
               exists i :: 0 <= i < |states| && states[i].instanceId == id && (!cfg.checkHealth || states[i].state == "InService"))
  {
    HealthyIdsMembers(p.describeInstanceHealth(cfg.region, cfg.name).value, cfg.checkHealth, id);
  }
}

=== FILE: poller.dfy ===
/**
 The poll loop (`poller.go`): one pass up front, then a pass on every tick
 of the ticker until a termination signal arrives; a hang-up signal is
 acknowledged and otherwise ignored.

 Timers and signal delivery are abstract: the loop consumes a sequence of
 events in the order the `select` statement takes them, and every tick
 carries the render outcome its pass sees.
 */
module Poller {
  import opened Wrappers
  import opened Errors
  import opened Configuration
  import opened Writer

  datatype Event =
    | Tick(render: Render)
    | ReloadSignal
    | DoneSignal

  /** `Poller`: its configuration and the writer it drives. */
  datatype Poller = Poller(config: Config, writer: Writer)

  /**
   How the loop ended: `Stopped` by a termination signal, still `Waiting`
   for events when the given ones ran out, or `TickerPanic` when the ticker
   could not be created because the interval was not positive.
   */
  datatype Outcome = Stopped | Waiting | TickerPanic

  /** The writer after a run of passes, everything they did, and how many there were. */
  datatype Run = Run(writer: Writer, effects: seq<Effect>, passes: nat, outcome: Outcome)

  const Nanosecond: int := 1
  const Second: int := 1_000_000_000 * Nanosecond

  /** Two's complement wrap-around of a Go `int64` result. */
  function Wrap64(x: int): (r: Int64)
    ensures -0x8000_0000_0000_0000 <= x < 0x8000_0000_0000_0000 ==> r == x
    ensures (r - x) % 0x1_0000_0000_0000_0000 == 0
  {
    (x + 0x8000_0000_0000_0000) % 0x1_0000_0000_0000_0000 - 0x8000_0000_0000_0000
  }

  /** `time.Duration(PollingSeconds) * time.Second`, in nanoseconds, with `int64` overflow. */
  function TickerInterval(seconds: Int64): (ns: Int64)
    ensures -9_223_372_036 <= seconds <= 9_223_372_036 ==> ns == seconds * 1_000_000_000
    ensures (ns - seconds * 1_000_000_000) % 0x1_0000_0000_0000_0000 == 0
  {
    Wrap64(seconds * Second)
  }

  /** A configured number of seconds up to about 292 years gives the intended, positive interval. */
  lemma TickerIntervalPositive(seconds: Int64)
    requires 1 <= seconds <= 9_223_372_036
    ensures TickerInterval(seconds) == seconds * 1_000_000_000 > 0
  {
  }

  /**
   From -9,223,372,036 to 0 seconds the interval is not positive, and
   `time.NewTicker` panics on it.
   */
  lemma TickerIntervalNonPositive(seconds: Int64)
    requires -9_223_372_036 <= seconds <= 0
    ensures TickerInterval(seconds) <= 0
  {
  }

  /** One second more than the positive range overflows to a negative interval. */
  lemma TickerIntervalOverflow()
    ensures TickerInterval(9_223_372_037) == -9_223_372_036_709_551_616
  {
  }

  /**
   One second below the non-positive range wraps to a positive interval of
   about 292 years, so the ticker starts and no tick ever comes in practice.
   */
  lemma TickerIntervalUnderflow()
    ensures TickerInterval(-9_223_372_037) == 9_223_372_036_709_551_616 > 0
  {
  }

  /** `WriteFiles`: one pass whose returned error is dropped. */
  function WriteFiles(w: Writer, render: Render, hash: seq<byte> -> Digest): (r: Run)
    ensures r.passes == 1 && r.outcome == Waiting
    ensures r.writer == WriteTemplate(w, render, hash).writer
    ensures r.effects == WriteTemplate(w, render, hash).effects
  {
    var pass := WriteTemplate(w, render, hash);
    Run(pass.writer, pass.effects, 1, Waiting)
  }

  /** The `for running { select ... }` part of `loop`, over the events taken in order. */
  function HandleEvents(w: Writer, events: seq<Event>, hash: seq<byte> -> Digest): (r: Run)
    ensures r.outcome != TickerPanic
    ensures r.writer.config == w.config
    decreases |events|
  {
    if events == [] then Run(w, [], 0, Waiting)
    else
      match events[0]
      case DoneSignal => Run(w, [], 0, Stopped)
      case ReloadSignal => HandleEvents(w, events[1..], hash)
      case Tick(render) =>
        var pass := WriteFiles(w, render, hash);
        var rest := HandleEvents(pass.writer, events[1..], hash);
        Run(rest.writer, pass.effects + rest.effects, 1 + rest.passes, rest.outcome)
  }

  /**
   `loop`: the first pass before anything else, then the ticker at the
   configured interval, then the events.
   */
  function Loop(p: Poller, first: Render, events: seq<Event>, hash: seq<byte> -> Digest): (r: Run)
    ensures r.passes >= 1
    ensures r.outcome == TickerPanic <==> TickerInterval(p.config.pollingSeconds) <= 0
    ensures WriteFiles(p.writer, first, hash).effects <= r.effects
  {
    var start := WriteFiles(p.writer, first, hash);
    if TickerInterval(p.config.pollingSeconds) <= 0 then
      Run(start.writer, start.effects, 1, TickerPanic)
    else
      var rest := HandleEvents(start.writer, events, hash);
      Run(rest.writer, start.effects + rest.effects, 1 + rest.passes, rest.outcome)
  }

  /** Number of ticks taken before the first termination signal (all of them if there is none). */
  function TicksBeforeDone(events: seq<Event>): (n: nat)
    ensures n <= |events|
  {
    if events == [] || events[0].DoneSignal? then 0
    else (if events[0].Tick? then 1 else 0) + TicksBeforeDone(events[1..])
  }

  /** The loop ends exactly when a termination signal is among the events. */
  lemma {:induction false} HandleEventsPasses(w: Writer, events: seq<Event>, hash: seq<byte> -> Digest)
    ensures HandleEvents(w, events, hash).passes == TicksBeforeDone(events)
    ensures HandleEvents(w, events, hash).outcome == Stopped <==> DoneSignal in events
    decreases |events|
  {
    if events != [] && !events[0].DoneSignal? {
      var next := if events[0].Tick? then WriteFiles(w, events[0].render, hash).writer else w;
      HandleEventsPasses(next, events[1..], hash);
      assert events == [events[0]] + events[1..];
    }
  }

  /** One pass up front, then one per tick before the first termination signal. */
  lemma LoopPasses(p: Poller, first: Render, events: seq<Event>, hash: seq<byte> -> Digest)
    requires TickerInterval(p.config.pollingSeconds) > 0
    ensures Loop(p, first, events, hash).passes == 1 + TicksBeforeDone(events)
    ensures Loop(p, first, events, hash).outcome == Stopped <==> DoneSignal in events
  {
    HandleEventsPasses(WriteFiles(p.writer, first, hash).writer, events, hash);
  }

  /** Nothing after a termination signal is ever looked at. */
  lemma {:induction false} HandleEventsDone(w: Writer, events: seq<Event>, later: seq<Event>, hash: seq<byte> -> Digest)
    ensures HandleEvents(w, events + [DoneSignal] + later, hash) == HandleEvents(w, events + [DoneSignal], hash)
    decreases |events|
  {
    if events == [] {
      assert ([] + [DoneSignal] + later)[0] == DoneSignal;
      assert ([] + [DoneSignal])[0] == DoneSignal;
    } else {
      var long := events + [DoneSignal] + later;
      var short := events + [DoneSignal];
      assert long[0] == events[0] && short[0] == events[0];
      assert long[1..] == events[1..] + [DoneSignal] + later;
      assert short[1..] == events[1..] + [DoneSignal];
      var next := if events[0].Tick? then WriteFiles(w, events[0].render, hash).writer else w;
      HandleEventsDone(next, events[1..], later, hash);
    }
  }

  /** A hang-up signal, wherever it arrives in the event sequence, changes nothing. */
  lemma {:induction false} ReloadSignalIgnored(w: Writer, before: seq<Event>, after: seq<Event>, hash: seq<byte> -> Digest)
    ensures HandleEvents(w, before + [ReloadSignal] + after, hash) == HandleEvents(w, before + after, hash)
    decreases |before|
  {
    if before == [] {
      assert ([] + [ReloadSignal] + after)[1..] == after;
      assert [] + after == after;
    } else {
      var with := before + [ReloadSignal] + after;
      var without := before + after;
      assert with[0] == before[0] && without[0] == before[0];
      assert with[1..] == before[1..] + [ReloadSignal] + after;
      assert without[1..] == before[1..] + after;
      var next := if before[0].Tick? then WriteFiles(w, before[0].render, hash).writer else w;
      ReloadSignalIgnored(next, before[1..], after, hash);
    }
  }

  /** A failed pass counts as a pass but leaves the writer as it was, and the loop goes on. */
  lemma FailedTickIgnored(w: Writer, e: Error, events: seq<Event>, hash: seq<byte> -> Digest)
    ensures var failed := HandleEvents(w, [Tick(Err(e))] + events, hash);
            var rest := HandleEvents(w, events, hash);
            failed == rest.(passes := rest.passes + 1)
  {
    assert ([Tick(Err(e))] + events)[1..] == events;
  }

  /** However the events interleave, no reload ever runs without the write it follows. */
  lemma {:induction false} HandleEventsOrder(w: Writer, events: seq<Event>, hash: seq<byte> -> Digest)
    ensures ReloadsFollowWrites(HandleEvents(w, events, hash).effects)
    decreases |events|
  {
    if events != [] {
      match events[0]
      case DoneSignal =>
      case ReloadSignal =>
        HandleEventsOrder(w, events[1..], hash);
      case Tick(render) =>
        var pass := WriteFiles(w, render, hash);
        WriteTemplateOrder(w, render, hash);
        HandleEventsOrder(pass.writer, events[1..], hash);
        ReloadsFollowWritesAppend(pass.effects, HandleEvents(pass.writer, events[1..], hash).effects);
    }
  }

  /** Every tick renders these bytes. */
  predicate AllTicksRender(events: seq<Event>, bits: seq<byte>) {
    forall i :: 0 <= i < |events| && events[i].Tick? ==> events[i].render == Ok(bits)
  }

  /** Once the writer holds the digest of the output, ticks that keep rendering it do nothing. */
  lemma {:induction false} SteadyOutputNoEffects(w: Writer, bits: seq<byte>, events: seq<Event>, hash: seq<byte> -> Digest)
    requires w.lastRunMd5 == hash(bits)
    requires AllTicksRender(events, bits)
    ensures HandleEvents(w, events, hash).effects == []
    ensures HandleEvents(w, events, hash).writer == w
    decreases |events|
  {
    if events != [] && !events[0].DoneSignal? {
      assert AllTicksRender(events[1..], bits) by {
        forall i | 0 <= i < |events[1..]| && events[1..][i].Tick?
          ensures events[1..][i].render == Ok(bits)
        {
          assert events[1..][i] == events[i + 1];
        }
      }
      SteadyOutputNoEffects(w, bits, events[1..], hash);
    }
  }

  /**
   While the output stays the same, the whole loop writes the file at most
   once (exactly once when it differs from what the writer last acted on)
   and reloads at most once.
   */
  lemma SteadyOutputWritesOnce(p: Poller, bits: seq<byte>, events: seq<Event>, hash: seq<byte> -> Digest)
    requires AllTicksRender(events, bits)
    ensures var r := Loop(p, Ok(bits), events, hash);
            && CountWrites(r.effects) == (if hash(bits) != p.writer.lastRunMd5 then 1 else 0)
            && CountReloads(r.effects) <= 1
  {
    var start := WriteFiles(p.writer, Ok(bits), hash);
    WriteTemplateIdempotent(p.writer, bits, hash);
    WriteTemplateOrder(p.writer, Ok(bits), hash);
    CountEffectsAppend(start.effects, []);
    assert start.effects + [] == start.effects;
    if TickerInterval(p.config.pollingSeconds) > 0 {
      SteadyOutputNoEffects(start.writer, bits, events, hash);
    }
  }

  /**
   End to end: a first pass and a tick rendering "A" then "A" write and
   reload once; "A" then "B" write and reload twice, in write-reload order.
   */
  lemma TwoPasses(c: Config, a: seq<byte>, b: seq<byte>, hash: seq<byte> -> Digest)
    requires c.command != "" && TickerInterval(c.pollingSeconds) > 0
    requires hash(a) != ZeroDigest && hash(b) != ZeroDigest && hash(a) != hash(b)
    ensures var same := Loop(Poller(c, NewWriter(c)), Ok(a), [Tick(Ok(a))], hash);
            same.effects == [WroteFile(c.destination, a), RanReload(c.command)]
    ensures var changed := Loop(Poller(c, NewWriter(c)), Ok(a), [Tick(Ok(b))], hash);
            changed.effects == [WroteFile(c.destination, a), RanReload(c.command),
                                WroteFile(c.destination, b), RanReload(c.command)]
  {
    var w := NewWriter(c);
    var first := WriteTemplate(w, Ok(a), hash);
    assert first.effects == [WroteFile(c.destination, a), RanReload(c.command)];
    assert HandleEvents(first.writer, [Tick(Ok(a))], hash).effects == [];
    var second := WriteTemplate(first.writer, Ok(b), hash);
    assert second.effects == [WroteFile(c.destination, b), RanReload(c.command)];
    assert HandleEvents(second.writer, [], hash).effects == [];
    assert HandleEvents(first.writer, [Tick(Ok(b))], hash).effects == second.effects + [];
  }
}

=== FILE: wrappers.dfy ===
/** Go's nil-able pointer and its `(value, error)` return pair, as used by every module of the model. */
module Wrappers {

  /** Go's nil-able pointer: `None` is nil. */
  datatype Option<+T> = None | Some(value: T)

  /** Go's `(value, error)` return pair: exactly one of the two is meaningful. */
  datatype Result<+T, +E> = Ok(value: T) | Err(error: E)
}

=== FILE: writer.dfy ===
/**
 The reconciliation pass (`writer.go`): render the template, compare the
 digest of the output with the one kept from the last pass, and only when it
 changed record the new digest, write the destination file and run the
 reload command.

 The template engine is abstract: a pass receives the render outcome (the
 bytes, or the load/execute error) as a value. The digest function is a
 parameter too; only equality of digests matters to the pass. Writing the
 file and running the reload command are recorded as effects, in order.
 */
module Writer {
  import opened Wrappers
  import opened Errors
  import opened Configuration
  import opened Lookup

  newtype byte = x: int | 0 <= x < 256

  /** An MD5 sum: sixteen bytes. */
  type Digest = d: seq<byte> | |d| == 16 witness [0, 0, 0, 0, 0, 0, 0, 0, 0, 0, 0, 0, 0, 0, 0, 0]

  /** The zero value of Go's `[16]byte`, held before the first pass. */
  const ZeroDigest: Digest := [0, 0, 0, 0, 0, 0, 0, 0, 0, 0, 0, 0, 0, 0, 0, 0]

  /** What rendering the template gave: the output bytes, or the error loading or executing it. */
  type Render = Result<seq<byte>, Error>

  /** The writer's state: its configuration and the digest of the last output it acted on. */
  datatype Writer = Writer(config: Config, lastRunMd5: Digest)

  /** The observable side effects of a pass. */
  datatype Effect =
    | WroteFile(path: string, contents: seq<byte>)
    | RanReload(command: string)

  /** A pass's outcome: the writer after it, the error it returned, and what it did. */
  datatype PassResult = PassResult(writer: Writer, err: Option<Error>, effects: seq<Effect>)

  /** `newWriter`: a writer for `c` that has not acted on any output yet. */
  function NewWriter(c: Config): (w: Writer)
    ensures w.config == c
    ensures forall i :: 0 <= i < |w.lastRunMd5| ==> w.lastRunMd5[i] == 0
  {
    Writer(c, ZeroDigest)
  }

  /**
   `LookupService`, the function templates call: an unknown service name is
   an error and issues no provider call; type "elb" or "search" selects the
   matching lookup; any other type is an error, again without any call.
   */
  function LookupService(cfg: Config, p: Provider, name: string): (r: LookupRun)
    ensures name !in cfg.services ==> r == LookupRun(Err(ServiceNotFound(name)), [])
    ensures name in cfg.services && cfg.services[name].serviceType == "elb" ==>
              r == ElbLookup(cfg.services[name].elb, p)
    ensures name in cfg.services && cfg.services[name].serviceType == "search" ==>
              r == SearchLookup(cfg.services[name].search, p)
    ensures name in cfg.services && cfg.services[name].serviceType !in {"elb", "search"} ==>
              r == LookupRun(Err(InvalidServiceType(cfg.services[name].serviceType)), [])
  {
    if name !in cfg.services then
      LookupRun(Err(ServiceNotFound(name)), [])
    else
      var service := cfg.services[name];
      if service.serviceType == "elb" then ElbLookup(service.elb, p)
      else if service.serviceType == "search" then SearchLookup(service.search, p)
      else LookupRun(Err(InvalidServiceType(service.serviceType)), [])
  }

  /** Only a configured service of a known type reaches the provider; the others fail without a call. */
  lemma LookupServiceCalls(cfg: Config, p: Provider, name: string)
    ensures LookupService(cfg, p, name).calls != [] <==>
              name in cfg.services && cfg.services[name].serviceType in {"elb", "search"}
    ensures LookupService(cfg, p, name).calls == [] ==> LookupService(cfg, p, name).result.Err?
  {
    if name in cfg.services && cfg.services[name].serviceType == "search" {
      assert LookupService(cfg, p, name).calls == [DescribeInstances(cfg.services[name].search.region,
                                                                     SearchQuery(cfg.services[name].search))];
    }
  }

  /** `reloadService`: the reload command runs only when one is configured. */
  function ReloadService(cfg: Config): (effects: seq<Effect>)
    ensures |effects| <= 1
    ensures effects != [] <==> cfg.command != ""
    ensures forall e :: e in effects ==> e == RanReload(cfg.command)
  {
    if cfg.command != "" then [RanReload(cfg.command)] else []
  }

  /** `checkConfig`: checking is not implemented, so no output is ever rejected. */
  function CheckConfig(cfg: Config, bits: seq<byte>): (err: Option<Error>)
    ensures err.None?
  {
    None
  }

  /**
   `WriteTemplate`. A render error is returned and nothing changes. Equal
   digests mean no change and no effect. A new digest is stored first,
   before the (never failing) check, and is kept; then the file is written
   and the reload runs.
   */
  function WriteTemplate(w: Writer, render: Render, hash: seq<byte> -> Digest): (r: PassResult)
    ensures r.writer.config == w.config
    ensures render.Err? ==> r == PassResult(w, Some(render.error), [])
    ensures render.Ok? ==> r.err.None? && r.writer.lastRunMd5 == hash(render.value)
    ensures render.Ok? && hash(render.value) == w.lastRunMd5 ==> r.writer == w && r.effects == []
    ensures render.Ok? && hash(render.value) != w.lastRunMd5 ==>
              r.effects == [WroteFile(w.config.destination, render.value)] + ReloadService(w.config)
  {
    match render
    case Err(e) => PassResult(w, Some(e), [])
    case Ok(bits) =>
      var checksum := hash(bits);
      if checksum != w.lastRunMd5 then
        var updated := w.(lastRunMd5 := checksum);
        match CheckConfig(updated.config, bits)
        case Some(e) => PassResult(updated, Some(e), [])
        case None => PassResult(updated, None, [WroteFile(updated.config.destination, bits)] + ReloadService(updated.config))
      else
        PassResult(w, None, [])
  }

  /** Every reload in a trace comes right after a file write. */
  predicate ReloadsFollowWrites(effects: seq<Effect>) {
    forall i :: 0 <= i < |effects| && effects[i].RanReload? ==> i > 0 && effects[i - 1].WroteFile?
  }

  /** Gluing traces that each keep the order keeps it, since neither begins with a reload. */
  lemma ReloadsFollowWritesAppend(a: seq<Effect>, b: seq<Effect>)
    requires ReloadsFollowWrites(a) && ReloadsFollowWrites(b)
    ensures ReloadsFollowWrites(a + b)
  {
    forall i | 0 <= i < |a + b| && (a + b)[i].RanReload?
      ensures i > 0 && (a + b)[i - 1].WroteFile?
    {
      if i >= |a| {
        assert (a + b)[i] == b[i - |a|];
        assert (a + b)[i - 1] == b[i - |a| - 1];
      }
    }
  }

  /** Each pass performs at most one write and only reloads right after it. */
  lemma WriteTemplateOrder(w: Writer, render: Render, hash: seq<byte> -> Digest)
    ensures ReloadsFollowWrites(WriteTemplate(w, render, hash).effects)
    ensures CountWrites(WriteTemplate(w, render, hash).effects) <= 1
    ensures CountWrites(WriteTemplate(w, render, hash).effects) == 1 <==>
              render.Ok? && hash(render.value) != w.lastRunMd5
  {
    var effects := WriteTemplate(w, render, hash).effects;
    if render.Ok? && hash(render.value) != w.lastRunMd5 {
      var reload := ReloadService(w.config);
      assert effects == [WroteFile(w.config.destination, render.value)] + reload;
      assert effects[1..] == reload;
      assert CountWrites(reload) == 0 by {
        if reload != [] {
          assert reload == [RanReload(w.config.command)];
          assert reload[1..] == [];
        }
      }
    }
  }

  /** Number of file writes in a trace. */
  function CountWrites(effects: seq<Effect>): (n: nat)
    ensures n <= |effects|
  {
    if effects == [] then 0 else (if effects[0].WroteFile? then 1 else 0) + CountWrites(effects[1..])
  }

  /** Number of reloads in a trace. */
  function CountReloads(effects: seq<Effect>): (n: nat)
    ensures n <= |effects|
  {
    if effects == [] then 0 else (if effects[0].RanReload? then 1 else 0) + CountReloads(effects[1..])
  }

  lemma {:induction false} CountEffectsAppend(a: seq<Effect>, b: seq<Effect>)
    ensures CountWrites(a + b) == CountWrites(a) + CountWrites(b)
    ensures CountReloads(a + b) == CountReloads(a) + CountReloads(b)
    decreases |a|
  {
    if a == [] {
      assert a + b == b;
    } else {
      assert (a + b)[0] == a[0];
      assert (a + b)[1..] == a[1..] + b;
      CountEffectsAppend(a[1..], b);
    }
  }

  /**
   Idempotence: a second pass over the same output changes nothing and does
   nothing, so two such passes write at most once and reload at most once.
   */
  lemma WriteTemplateIdempotent(w: Writer, bits: seq<byte>, hash: seq<byte> -> Digest)
    ensures var first := WriteTemplate(w, Ok(bits), hash);
            var second := WriteTemplate(first.writer, Ok(bits), hash);
            && second == PassResult(first.writer, None, [])
            && CountWrites(first.effects + second.effects) <= 1
            && CountReloads(first.effects + second.effects) <= 1
  {
    var first := WriteTemplate(w, Ok(bits), hash);
    WriteTemplateOrder(w, Ok(bits), hash);
    CountEffectsAppend(first.effects, []);
    assert first.effects + [] == first.effects;
    if hash(bits) != w.lastRunMd5 {
      var reload := ReloadService(w.config);
      assert first.effects[1..] == reload;
      assert CountReloads(reload) <= 1 by {
        if reload != [] {
          assert reload[1..] == [];
        }
      }
    }
  }

  /** A configured check command never stops or alters a pass. */
  lemma CheckNeverBlocks(w: Writer, render: Render, hash: seq<byte> -> Digest, check: string)
    ensures WriteTemplate(w.(config := w.config.(check := check)), render, hash).effects
            == WriteTemplate(w, render, hash).effects
    ensures WriteTemplate(w.(config := w.config.(check := check)), render, hash).err
            == WriteTemplate(w, render, hash).err
  {
  }
}
